=== FILE: README.md ===
# Nearest-repeater command: a Dafny model

This project models the core of the `aprsd-repeat-plugins` "nearest repeater" command for the
APRSD amateur-radio message bot. A station sends a message such as `n 3 70cm +echo`. The plugin:

- reads the parameters as a station count, a frequency band and a list of repeater-feature filters;
- asks a repeater-database service for the repeaters nearest the sender;
- formats the answer either as one short text line per repeater (the `n` command), or as a single
  APRS "item in message" object for the nearest one (the `o` command; see
  http://www.aprs.org/aprs12/item-in-msg.txt).

Modules, leaf first:

- `Wrappers` (`wrappers.dfy`): `Option` and `Result`.
- `Text` (`text.dfy`): `str.split` and `str.join` on one separator character, ASCII `str.lower`,
  `"{:9s}"` padding and `str.replace(c, "")`, with their round-trip lemmas.
- `Integers` (`integers.dfy`): the `is_int` test and `int()` conversion of a token, plus their
  inverse, the decimal spelling of an integer.
- `Catalog` (`catalog.dfy`): the band plan `FREQ_BAND_PLAN` (band token to description) and the
  filter table `STATION_FEATURES` (alias to database column), as constant maps.
- `Tokenizer` (`tokenizer.dfy`): the token classifier, the left-to-right token loop with its
  usage-error short circuit, and the count and band defaults. The loop is proved equal to an
  independent reference read from the end of the list: the last integer, the last catalogued band
  and every known filter column in order.
- `Lookup` (`lookup.dfy`): the repeater record, the query body posted to the service and the
  request half of `fetch_data`. The sender's position and the service's answer are parameters.
- `Replies` (`replies.dfy`): the list-form and object-form formatters. Float parsing, the `> 0`
  test and the `:.1f`/`:.2f` renderings are the uninterpreted function fields of a `Numerics`
  value. Only the decisions and the string assembly are modelled.

Facts proved that are easy to miss in the source:

- The integer test runs first, so `+5` is a count, not a filter.
- The trailing-`m` test runs before the `+` test, so `+fm` is an unknown band and is ignored.
  The `fm_analog` column can still be selected, but only as `+FM` or `+fM`. Those spellings do not
  end in a lower-case `m`, and the alias is lower-cased before lookup (`FmFilterNeedsCapitalM`).
- An empty token (from two adjacent spaces) is unrecognised, so the request becomes a usage error.
- A count of `0` falls back to 1, but a negative count is kept and sent to the service.

Three facts about the code that are easy to misread:

- The filters form a list that keeps duplicates and token order. They are not a set.
- In the object reply the callsign is padded to 9 characters but never truncated.
- The object reply has no space before `!` and none between the longitude's `W` and the `r`.

## Model

| member | source | states |
|---|---|---|
| Text.Split | aprsd_repeat_plugins/nearest.py:166 | `message.split(" ")` yields at least one piece and no piece contains the separator |
| Text.JoinSplit | aprsd_repeat_plugins/nearest.py:166 | joining the split pieces with the separator gives back the message, so the split loses nothing (empty pieces included) |
| Text.SplitJoin | aprsd_repeat_plugins/nearest.py:223 | splitting a join of separator-free pieces gives back exactly the pieces |
| Text.SplitNoSeparator | aprsd_repeat_plugins/nearest.py:166 | a message without a space is the single command word, so it has no parameter tokens |
| Text.SplitAtFirstSeparator | aprsd_repeat_plugins/nearest.py:166 | the first separator cuts the string exactly after the separator-free prefix |
| Text.LowerCaseVariant | aprsd_repeat_plugins/nearest.py:194 | a lower-case word with any of its letters written in upper case lowers back to the word |
| Text.PadRight | aprsd_repeat_plugins/nearest.py:318 | `{:9s}` keeps the whole name, pads with spaces to width 9 and never truncates |
| Text.SplitConcat | aprsd_repeat_plugins/nearest.py:166 | a separator anywhere in the message cuts it into the pieces before it followed by the pieces after it |
| Text.JoinAppend | aprsd_repeat_plugins/nearest.py:223 | joining two lists of pieces is joining each and putting one separator between them |
| Text.RemoveChar | aprsd_repeat_plugins/nearest.py:316 | `replace(".", "")` leaves no `.`, keeps every other character with its multiplicity, and changes nothing when there is no `.` |
| Text.RemoveCharAppend | aprsd_repeat_plugins/nearest.py:316 | removing a character works piece by piece over a concatenation |
| Integers.IntValue | aprsd_repeat_plugins/nearest.py:183 | `int()` of a token starting with `-` is at most 0, and of any other integer token at least 0 |
| Integers.IntStringRoundTrip | aprsd_repeat_plugins/nearest.py:130-135 | every integer's decimal spelling passes `is_int` and `int()` reads back exactly that integer |
| Integers.NatDigitsOfValue | aprsd_repeat_plugins/nearest.py:130-135 | the other direction of the round trip: reading a digit run without leading zeros and spelling the value again gives back the run |
| Integers.LeadingZero | aprsd_repeat_plugins/nearest.py:183 | a leading zero does not change the value, so `05` is read as 5 |
| Integers.PlusSignKeepsValue | aprsd_repeat_plugins/nearest.py:130-135 | `+` followed by digits passes `is_int`, with the value of the digits |
| Catalog.BandKeysAreBandShaped | aprsd_repeat_plugins/nearest.py:14-75 | every band key ends in `m`, is not an integer and has at least two characters, and the default `2m` is a key |
| Catalog.FeatureValuesHaveNoComma | aprsd_repeat_plugins/nearest.py:79-91 | no filter column contains a comma |
| Catalog.AliasIsLowerWord | aprsd_repeat_plugins/nearest.py:79-91 | every filter alias is a non-empty word of lower-case ASCII letters |
| Tokenizer.Classify | aprsd_repeat_plugins/nearest.py:179-199 | a token is unrecognised exactly when it is not an integer, does not end in `m` and does not start with `+`; a band result is a catalogued key and a filter result is a catalogued column; a non-integer ending in `m` is an ignored unknown band iff it is not catalogued; a non-integer not ending in `m` and starting with `+` is a filter iff its lower-cased alias is known, and an ignored unknown filter otherwise |
| Tokenizer.Finish | aprsd_repeat_plugins/nearest.py:201-209 | a missing or zero count becomes 1 and any other count is kept; a missing band becomes `2m`; the filters are untouched |
| Tokenizer.ParseMessage | aprsd_repeat_plugins/nearest.py:166-209 | a message is a usage error iff one of its parameter tokens is unrecognised; a success has a catalogued band, a non-zero count and only catalogued filter columns |
| Tokenizer.ParseFromSnoc | aprsd_repeat_plugins/nearest.py:179-199 | parsing one more token continues from the state the shorter list reached, and an earlier failure is final |
| Tokenizer.ParseFromMeaning | aprsd_repeat_plugins/nearest.py:176-199 | the token loop fails iff some token is unrecognised, always with the usage text, and otherwise holds the last count, the last catalogued band and every known filter column in order |
| Tokenizer.ParseParametersMeaning | aprsd_repeat_plugins/nearest.py:176-209 | the whole parse against the reference: usage error iff an unrecognised token exists; otherwise the reference values with defaults applied |
| Tokenizer.NoParameters | aprsd_repeat_plugins/nearest.py:176-209 | a message with no parameters (`n`) asks for count 1, band `2m` and no filters |
| Tokenizer.UsageShortCircuits | aprsd_repeat_plugins/nearest.py:179-199 | one unrecognised token makes the result exactly the usage text, whatever comes before or after it |
| Tokenizer.DoubleSpaceIsUsage | aprsd_repeat_plugins/nearest.py:166-199 | the empty token is unrecognised, so a double space anywhere in the message gives the usage text |
| Tokenizer.PlusDigitsIsCount | aprsd_repeat_plugins/nearest.py:181-183 | `+` followed by digits is classified as a count with the value of the digits, never as a filter |
| Tokenizer.FmFilterNeedsCapitalM | aprsd_repeat_plugins/nearest.py:184-196 | `+fm` is an unknown band; a token selects `fm_analog` iff it is `+`, an `f` in either case, then an upper-case `M` |
| Tokenizer.AliasInAnyCase | aprsd_repeat_plugins/nearest.py:192-196 | `+` followed by a known alias with any of its letters in upper case (and not ending in a lower-case `m`) selects that alias's column |
| Tokenizer.CatalogBandsAccepted | aprsd_repeat_plugins/nearest.py:184-187 | every catalogued band token is classified as that band |
| Tokenizer.IntegerTokenIsCount | aprsd_repeat_plugins/nearest.py:181-183 | the decimal spelling of any integer is classified as a count of exactly that integer |
| Tokenizer.IgnoredTokenChangesNothing | aprsd_repeat_plugins/nearest.py:186-196 | appending a non-integer token that ends in `m` but is not catalogued, or that starts with `+`, does not end in `m` and names no known alias, leaves the parse result unchanged |
| Tokenizer.LaterCountOverrides | aprsd_repeat_plugins/nearest.py:181-204 | a later integer replaces any earlier count (0 becomes 1, a negative is kept) and leaves band and filters alone |
| Tokenizer.LaterBandOverrides | aprsd_repeat_plugins/nearest.py:184-187 | a later catalogued band replaces any earlier band and leaves count and filters alone |
| Tokenizer.FilterAppends | aprsd_repeat_plugins/nearest.py:192-196 | a known `+alias`, in any letter case, appends its column after the earlier ones, keeping duplicates, and leaves count and band unchanged |
| Tokenizer.ParsedRequestWellFormed | aprsd_repeat_plugins/nearest.py:176-209 | every parsed request has a catalogued band, a non-zero count and only catalogued filter columns |
| Tokenizer.ExampleRequest | aprsd_repeat_plugins/nearest.py:166-209 | `n 3 70cm +echo` parses to count 3, band `70cm`, filters `[echolink_node]` |
| Lookup.FiltersParam | aprsd_repeat_plugins/nearest.py:222-223 | the `filters` entry is absent iff no filter was requested |
| Lookup.FiltersParamRoundTrip | aprsd_repeat_plugins/nearest.py:222-223 | when no column contains a comma, splitting the entry on `,` gives back the requested list |
| Lookup.BuildQuery | aprsd_repeat_plugins/nearest.py:221-223 | the query carries the given position and the parsed count and band, and has a `filters` entry iff filters were requested |
| Lookup.FetchData | aprsd_repeat_plugins/nearest.py:199-227 | a malformed message yields the usage text without contacting the service; otherwise the service's answer to the query built from the parsed request is returned |
| Lookup.QueryFromMessage | aprsd_repeat_plugins/nearest.py:201-223 | the query for a well-formed message asks for a catalogued band and a non-zero count, and its `filters` entry splits back into the parsed filters |
| Replies.OffsetSign | aprsd_repeat_plugins/nearest.py:247-250 | the sign is `+` iff the offset reads as a number greater than 0, and `-` otherwise (non-numeric included) |
| Replies.Distance | aprsd_repeat_plugins/nearest.py:254-267 | unit `mi` iff the distance is numeric and the lower-cased country is the United States or the United Kingdom; `km` iff numeric and any other country; no unit and the text unchanged iff not numeric |
| Replies.Tone | aprsd_repeat_plugins/nearest.py:269-271 | a numeric tone is rendered with one decimal; any other text is passed through unchanged |
| Replies.BothFormsShareTone | aprsd_repeat_plugins/nearest.py:269-277 | the tone field of a repeater's list line equals the tone field of its item, so both forms report the same tone |
| Replies.ListLine | aprsd_repeat_plugins/nearest.py:273-281 | a line starts with the callsign and a space, has the offset sign right after the frequency, and ends with a space and the direction |
| Replies.ListLineFields | aprsd_repeat_plugins/nearest.py:273-281 | when no field contains a space, splitting a line on spaces gives exactly callsign, frequency+sign, `T`+tone, distance+unit and direction |
| Replies.ListReplies | aprsd_repeat_plugins/nearest.py:241-285 | `None Found` iff the answer is missing or empty; otherwise exactly one line per record, in record order |
| Replies.OffsetDigits | aprsd_repeat_plugins/nearest.py:314-316 | the two-decimal offset is sent with no `.`, every other character kept as often as it occurs, and unchanged when it had none |
| Replies.OffsetDigitsAtPoint | aprsd_repeat_plugins/nearest.py:314-316 | with one decimal point, the digits sent are those before the point followed by those after it, in order |
| Replies.ItemInMessage | aprsd_repeat_plugins/nearest.py:307-320 | the object starts with `)`, the callsign padded to 9 and `!`; for callsigns of up to 9 characters `!` sits at index 10, longer ones put it right after the callsign; when no field holds a space, splitting the rest on spaces gives back `<lat>N/<long>Wr<frequency>Mhz`, `T<tone>` and the offset digits; the text ends with a space and the offset digits |
| Replies.ObjectReply | aprsd_repeat_plugins/nearest.py:304-322 | the object reply for a non-empty answer starts with `)`, the first record's padded callsign and `!`, and its rest splits back into the first record's position, frequency, tone and offset digits |
| Replies.ObjectReplyUsesFirstRecord | aprsd_repeat_plugins/nearest.py:304 | records after the first do not change the object reply |
| Replies.UnitIgnoresCase | aprsd_repeat_plugins/nearest.py:259-262 | two country names that lower-case alike get the same unit |
| Replies.DistanceExamples | aprsd_repeat_plugins/nearest.py:256-267 | a numeric distance is in miles for `United States` and `United Kingdom` and in kilometres for `Germany` |
| Replies.OffsetDigitsExample | aprsd_repeat_plugins/nearest.py:314-316 | an offset rendered as `0.60` is sent as `060` |

## Left out

- The position lookup on aprs.fi, the API-key and configuration reads, the HTTP POST and JSON
  decoding in `fetch_data` (nearest.py:139-164, 216-233) are external services. The sender's
  position and the service's answer are inputs, and a failed call is the answer `None`. The error
  texts "No aprs.fi apikey found" and "Failed to fetch aprs.fi location" are not produced.
- `process` in both forms iterates or indexes the text that `fetch_data` returns on an error
  (for example the usage text), which fails in the source. So the usage text never reaches the
  user as a reply. `Replies.ListReplies` and `Replies.ObjectReply` exclude that case by
  precondition.
- Replies.ObjectReply: the object form indexes `[0]` without checking that the answer is
  non-empty, and converts the offset with `float()` without checking it. It also formats the
  latitude and longitude with `{:.2f}` as they come from the service, which fails unless they are
  numbers. These crash paths are excluded by precondition: the answer is non-empty and the offset,
  latitude and longitude satisfy `isFloat`. For a record, the `if data:` test is always true, so the `None Found`
  branch of the object form (nearest.py:323-324) is not modelled.
- Float parsing, `> 0`, division by 1609 or 1000 and the `:.1f`/`:.2f` renderings are
  uninterpreted (`Replies.Numerics`).
- Replies.ItemInMessage: the source formats the latitude and longitude with `{:.2f}` directly,
  which works only on numbers. The model renders them through the same abstract two-decimal
  function as the offset, and `isFloat` stands for "is a number". Their sign and hemisphere are
  not interpreted.
- The `low`/`high` limits and descriptions' meaning in the band plan are not used by the parse and
  are not modelled. This includes the `5cm` entry, whose low limit exceeds its high limit.
- Integers.IntValue: Python's `int()` also accepts surrounding whitespace other than the space
  separator (tabs, newlines), `_` digit separators and non-ASCII digits. The model accepts only an
  optional `+`/`-` and ASCII digits, so such tokens are classified by the later tests instead.
  In the other direction, CPython's `int()` (3.11 and later, by default) rejects a digit run longer than 4300 digits, so
  `is_int` is false there, while the model accepts runs of any length as integers.
- Text.Lower: only ASCII letters are lower-cased; Python's Unicode case mapping is not modelled.
- Logging, the `@trace.trace` decorator, `help()`, the command regexes `^[nN]`/`^[oO]` and the
  plugin registration belong to the host framework and are not modelled.
- `VersionPlugin` (aprsd_repeat_plugins/aprsd_repeat_plugins.py) only returns the package
  version, and `aprsd_repeat_plugins/__init__.py` only reads package metadata. Neither is part of
  this model.

=== FILE: catalog.dfy ===
/** The two static lookup tables of the nearest-repeater plugin. */
module Catalog {
  import Integers
  import Text

  /** The band plan, keyed by the band token a user types. Only the keys take
      part in request parsing; each maps to its description, and the numeric
      low/high frequency limits are not modelled. */
  const FreqBandPlan: map<string, string> := map[
    "160m" := "160 Meters (1.8-2.0 MHz)",
    "80m" := "80 Meters (3.5-4.0 MHz)",
    "60m" := "60 Meters (5 MHz channels)",
    "40m" := "40 Meters (7.0 - 7.3 MHz)",
    "30m" := "30 Meters(10.1 - 10.15 MHz)",
    "20m" := "20 Meters(14.0 - 14.35 MHz)",
    "17m" := "17 Meters(18.068 - 18.168 MHz)",
    "15m" := "15 Meters(21.0 - 21.45 MHz)",
    "12m" := "12 Meters(24.89 - 24.99 MHz)",
    "10m" := "10 Meters(28 - 29.7 MHz)",
    "6m" := "6 Meters(50 - 54 MHz)",
    "2m" := "2 Meters(144 - 148 MHz)",
    "1.25m" := "1.25 Meters(222 - 225 MHz)",
    "70cm" := "70 Centimeters(420 - 450 MHz)",
    "33cm" := "33 Centimeters(902 - 928 MHz)",
    "23cm" := "23 Centimeters(1240 - 1300 MHz)",
    "13cm" := "13 Centimeters(2300 - 2310 and 2390 - 2450 MHz)",
    "9cm" := "9 centimeters(3300-3500 MHz)",
    "5cm" := "5 Centimeters(5650.0 - 5925.0 MHz)",
    "3cm" := "3 Centimeters(10000.000 - 10500.000 MHz )"
  ]

  /** The band used when a request names none. */
  const DefaultBand: string := "2m"

  /** The allowed filters: the alias a user types after `+` (lower case) to
      the database column it selects. */
  const StationFeatures: map<string, string> := map[
    "ares" := "ares",
    "races" := "races",
    "skywarn" := "skywarn",
    "allstar" := "allstar_node",
    "echolink" := "echolink_node",
    "echo" := "echolink_node",
    "irlp" := "irlp_node",
    "wires" := "wires_node",
    "fm" := "fm_analog",
    "dmr" := "dmr",
    "dstar" := "dstar"
  ]

  predicate EndsWithM(t: string)
  {
    |t| > 0 && t[|t| - 1] == 'm'
  }

  predicate StartsWithPlus(t: string)
  {
    |t| > 0 && t[0] == '+'
  }

  /** Every catalogued band token ends in `m` and is not an integer, so the
      tokenizer can always reach the band test for it; the default band is
      one of them. */
  lemma BandKeysAreBandShaped()
    ensures DefaultBand in FreqBandPlan
    ensures forall b :: b in FreqBandPlan ==> EndsWithM(b) && !Integers.IsInt(b) && |b| >= 2
  {
    forall b | b in FreqBandPlan
      ensures EndsWithM(b) && !Integers.IsInt(b) && |b| >= 2
    {
      assert b[|b| - 2] == 'c' || !Integers.IsDigit(b[|b| - 1]);
      assert !Integers.IsDigit(b[|b| - 1]);
      assert !Integers.IsSign(b[0]);
      assert !Integers.AllDigits(b);
    }
  }

  /** Every filter alias is a non-empty word of lower-case letters, so any
      spelling of it with some letters in upper case lowers back to it. */
  lemma AliasIsLowerWord(k: string)
    requires k in StationFeatures
    ensures |k| >= 1 && Text.LowerLetters(k)
  {
  }

  /** No filter column contains a comma, so the comma-joined filter list
      handed to the lookup service can be split back into its entries. */
  lemma FeatureValuesHaveNoComma()
    ensures forall f :: f in StationFeatures.Values ==> ',' !in f
  {
  }
}

=== FILE: integers.dfy ===
/** The integer test and conversion of the request tokenizer (`is_int` and
    `int(part)`), restricted to the plain decimal spelling: an optional `+` or
    `-` followed by one or more ASCII digits. */
module Integers {

  predicate IsDigit(c: char)
  {
    '0' <= c <= '9'
  }

  predicate AllDigits(s: string)
  {
    forall i :: 0 <= i < |s| ==> IsDigit(s[i])
  }

  predicate IsSign(c: char)
  {
    c == '+' || c == '-'
  }

  /** `is_int(token)`: the token is a signed or unsigned run of decimal digits. */
  predicate IsInt(t: string)
  {
    if |t| > 0 && IsSign(t[0]) then |t| >= 2 && AllDigits(t[1..])
    else |t| >= 1 && AllDigits(t)
  }

  function DigitValue(c: char): (d: nat)
    requires IsDigit(c)
    ensures d < 10
  {
    c as int - '0' as int
  }

  function DigitChar(d: nat): (c: char)
    requires d < 10
    ensures IsDigit(c) && DigitValue(c) == d
  {
    ('0' as int + d) as char
  }

  /** The value of a run of decimal digits, most significant first. */
  function DigitsValue(s: string): nat
    requires AllDigits(s)
    decreases |s|
  {
    if |s| == 0 then 0
    else DigitsValue(s[..|s| - 1]) * 10 + DigitValue(s[|s| - 1])
  }

  /** `int(token)` for a token accepted by `IsInt`. */
  function IntValue(t: string): (r: int)
    requires IsInt(t)
    ensures t[0] == '-' ==> r <= 0
    ensures t[0] != '-' ==> r >= 0
  {
    if IsSign(t[0]) then
      (if t[0] == '-' then -(DigitsValue(t[1..]) as int) else DigitsValue(t[1..]))
    else DigitsValue(t)
  }

  /** The shortest decimal digits of a natural number. */
  function NatDigits(n: nat): (s: string)
    ensures |s| >= 1 && AllDigits(s)
    decreases n
  {
    if n < 10 then [DigitChar(n)] else NatDigits(n / 10) + [DigitChar(n % 10)]
  }

  /** `str(n)`: the decimal spelling of an integer. */
  function IntString(n: int): string
  {
    if n < 0 then "-" + NatDigits(-n) else NatDigits(n)
  }

  lemma {:induction false} NatDigitsValue(n: nat)
    ensures DigitsValue(NatDigits(n)) == n
    decreases n
  {
    if n >= 10 {
      var s := NatDigits(n);
      NatDigitsValue(n / 10);
      assert s[..|s| - 1] == NatDigits(n / 10);
    }
  }

  /** Every integer's decimal spelling is an integer token that converts back
      to exactly that integer. */
  lemma IntStringRoundTrip(n: int)
    ensures IsInt(IntString(n))
    ensures IntValue(IntString(n)) == n
  {
    var s := IntString(n);
    if n < 0 {
      NatDigitsValue(-n);
      assert s[1..] == NatDigits(-n);
    } else {
      NatDigitsValue(n);
    }
  }

  /** A leading zero does not change the value, so `05` reads as 5. */
  lemma {:induction false} LeadingZero(s: string)
    requires AllDigits(s)
    ensures AllDigits("0" + s) && DigitsValue("0" + s) == DigitsValue(s)
    decreases |s|
  {
    if |s| > 0 {
      var p := s[..|s| - 1];
      LeadingZero(p);
      assert ("0" + s)[..|s|] == "0" + p;
      assert ("0" + s)[|s|] == s[|s| - 1];
    }
  }

  /** A digit run without a leading zero is worth at least 1. */
  lemma {:induction false} NonZeroLead(p: string)
    requires |p| >= 1 && AllDigits(p) && p[0] != '0'
    ensures DigitsValue(p) >= 1
    decreases |p|
  {
    if |p| > 1 {
      NonZeroLead(p[..|p| - 1]);
    }
  }

  /** Reading a digit run without leading zeros and spelling the value again
      gives back the same run: the other direction of the round trip. */
  lemma {:induction false} NatDigitsOfValue(s: string)
    requires |s| >= 1 && AllDigits(s) && (|s| == 1 || s[0] != '0')
    ensures NatDigits(DigitsValue(s)) == s
    decreases |s|
  {
    if |s| == 1 {
      assert DigitChar(DigitValue(s[0])) == s[0];
    } else {
      var p := s[..|s| - 1];
      var c := s[|s| - 1];
      NonZeroLead(p);
      NatDigitsOfValue(p);
      var n := DigitsValue(s);
      assert n == DigitsValue(p) * 10 + DigitValue(c);
      assert n / 10 == DigitsValue(p) && n % 10 == DigitValue(c);
      assert DigitChar(DigitValue(c)) == c;
      assert s == p + [c];
    }
  }

  /** A `+` in front of digits does not change the value. */
  lemma PlusSignKeepsValue(digits: string)
    requires |digits| >= 1 && AllDigits(digits)
    ensures IsInt("+" + digits)
    ensures IntValue("+" + digits) == DigitsValue(digits)
  {
    assert ("+" + digits)[1..] == digits;
  }
}

=== FILE: lookup.dfy ===
/** The request sent to the repeater-database service and the shape of what
    comes back. The sender's position and the service's answer are inputs:
    the position lookup and the HTTP call themselves are not modelled. */
module Lookup {
  import opened Wrappers
  import Text
  import Catalog
  import Tokenizer

  /** One repeater as the service returns it. Every field is kept as the
      text the service sent; numeric readings of them go through `Numerics`
      in the reply formatters. */
  datatype Record = Record(
    callsign: string,
    frequency: string,
    offset: string,
    uplinkOffset: string,
    distance: string,
    direction: string,
    country: string,
    lat: string,
    long: string)

  /** The JSON body posted to `<base_url>/nearest`; `filters` is present only
      when at least one filter was requested. */
  datatype NearestQuery = NearestQuery(
    lat: string, lon: string, count: int, band: string, filters: Option<string>)

  /** What the fetch step hands to the reply formatters: a text message (the
      usage text) or the decoded service answer, `None` when the call failed. */
  datatype Fetched = Message(text: string) | Data(records: Option<seq<Record>>)

  /** The `filters` entry: absent for an empty list, otherwise the columns
      joined with commas. */
  function FiltersParam(filters: seq<string>): (r: Option<string>)
    ensures r.None? <==> filters == []
  {
    if filters == [] then None else Some(Text.Join(filters, ','))
  }

  /** When no column contains a comma, the service can split the entry back
      into exactly the requested list, in order and with duplicates. */
  lemma FiltersParamRoundTrip(filters: seq<string>)
    requires forall i :: 0 <= i < |filters| ==> ',' !in filters[i]
    ensures FiltersParam(filters).Some? ==> Text.Split(FiltersParam(filters).value, ',') == filters
  {
    if filters != [] {
      Text.SplitJoin(filters, ',');
    }
  }

  /** The query for a parsed request at the sender's position. */
  function BuildQuery(lat: string, lon: string, req: Tokenizer.ParsedRequest): (q: NearestQuery)
    ensures q.lat == lat && q.lon == lon
    ensures q.count == req.count && q.band == req.band
    ensures q.filters.None? <==> req.filters == []
  {
    NearestQuery(lat, lon, req.count, req.band, FiltersParam(req.filters))
  }

  /** The request part of the fetch step: a malformed message yields the
      usage text without contacting the service; otherwise the service is
      asked (through `post`) with the query built from the parsed request. */
  function FetchData(lat: string, lon: string, message: string,
                     post: NearestQuery -> Option<seq<Record>>): (r: Fetched)
    ensures r.Message? <==> Tokenizer.ParseMessage(message).Failure?
    ensures r.Message? ==> r.text == Tokenizer.Usage
    ensures r.Data? ==>
      r.records == post(BuildQuery(lat, lon, Tokenizer.ParseMessage(message).value))
  {
    match Tokenizer.ParseMessage(message)
    case Failure(_) =>
      Tokenizer.ParseParametersMeaning(Text.Split(message, ' ')[1..]);
      Message(Tokenizer.Usage)
    case Success(req) => Data(post(BuildQuery(lat, lon, req)))
  }

  /** Every query built from a well-formed message asks for a catalogued band
      and a non-zero count, and its `filters` entry splits back into the
      requested columns. */
  lemma QueryFromMessage(lat: string, lon: string, message: string)
    requires Tokenizer.ParseMessage(message).Success?
    ensures BuildQuery(lat, lon, Tokenizer.ParseMessage(message).value).band in Catalog.FreqBandPlan
    ensures BuildQuery(lat, lon, Tokenizer.ParseMessage(message).value).count != 0
    ensures BuildQuery(lat, lon, Tokenizer.ParseMessage(message).value).filters.Some? ==>
      Text.Split(BuildQuery(lat, lon, Tokenizer.ParseMessage(message).value).filters.value, ',') ==
        Tokenizer.ParseMessage(message).value.filters
  {
    var req := Tokenizer.ParseMessage(message).value;
    Tokenizer.ParsedRequestWellFormed(Text.Split(message, ' ')[1..]);
    Catalog.FeatureValuesHaveNoComma();
    assert forall i :: 0 <= i < |req.filters| ==> ',' !in req.filters[i];
    FiltersParamRoundTrip(req.filters);
  }
}

=== FILE: replies.dfy ===
/** The two reply formatters: the plain list of one line per repeater, and
    the compact APRS "item in message" notation for the nearest repeater.
    Reading a field as a float and rendering floats with a fixed number of
    decimals are kept abstract in `Numerics`; only the decisions and the
    string assembly are modelled. */
module Replies {
  import opened Wrappers
  import Text
  import Lookup

  /** The float operations the formatters use, left uninterpreted:
      - `isFloat(s)`: `float(s)` succeeds;
      - `isPositive(s)`: `float(s) > 0` (consulted only when `isFloat(s)`);
      - `miles(s)`: `f"{float(s) / 1609:.1f}"`;
      - `kilometres(s)`: `f"{float(s) / 1000:.1f}"`;
      - `oneDecimal(s)`: `f"{float(s):.1f}"`;
      - `twoDecimals(s)`: `f"{float(s):.2f}"`, and `"{:.2f}".format(x)` of a
        number the service sent as a JSON number. */
  datatype Numerics = Numerics(
    isFloat: string -> bool,
    isPositive: string -> bool,
    miles: string -> string,
    kilometres: string -> string,
    oneDecimal: string -> string,
    twoDecimals: string -> string)

  /** A list-form reply: one line per repeater, or a single fixed text. */
  datatype Reply = Lines(lines: seq<string>) | Single(text: string)

  const NoneFound: string := "None Found"

  /** Width of the item name in the "item in message" notation. */
  const ItemNameWidth: nat := 9

  // ---------------------------------------------------------------------
  // List form

  /** The offset direction: `+` exactly when the offset reads as a positive
      number; a non-numeric offset counts as non-positive. */
  function OffsetSign(num: Numerics, offset: string): (s: string)
    ensures s == "+" <==> num.isFloat(offset) && num.isPositive(offset)
    ensures s == "-" <==> !(num.isFloat(offset) && num.isPositive(offset))
  {
    if num.isFloat(offset) && num.isPositive(offset) then "+" else "-"
  }

  /** Countries whose distances are reported in miles (compared ignoring
      letter case). */
  predicate UsesMiles(country: string)
  {
    var c := Text.Lower(country);
    c == "united states" || c == "united kingdom"
  }

  /** The distance text and its unit. A numeric distance (in metres) is
      converted to miles for the United States and the United Kingdom and to
      kilometres elsewhere; anything else is passed through with no unit. */
  function Distance(num: Numerics, distance: string, country: string): (r: (string, string))
    ensures r.1 == "mi" <==> num.isFloat(distance) && UsesMiles(country)
    ensures r.1 == "km" <==> num.isFloat(distance) && !UsesMiles(country)
    ensures r.1 == "" <==> !num.isFloat(distance)
    ensures r.1 == "mi" ==> r.0 == num.miles(distance)
    ensures r.1 == "km" ==> r.0 == num.kilometres(distance)
    ensures r.1 == "" ==> r.0 == distance
  {
    if num.isFloat(distance) then
      if UsesMiles(country) then (num.miles(distance), "mi")
      else (num.kilometres(distance), "km")
    else (distance, "")
  }

  /** The access tone: one decimal when numeric, otherwise as sent. */
  function Tone(num: Numerics, uplinkOffset: string): (t: string)
    ensures num.isFloat(uplinkOffset) ==> t == num.oneDecimal(uplinkOffset)
    ensures !num.isFloat(uplinkOffset) ==> t == uplinkOffset
  {
    if num.isFloat(uplinkOffset) then num.oneDecimal(uplinkOffset) else uplinkOffset
  }

  /** One list-form line:
      `<callsign> <frequency><sign> T<tone> <distance><unit> <direction>`. */
  function ListLine(num: Numerics, r: Lookup.Record): (line: string)
    ensures |line| >= |r.callsign| + |r.frequency| + |r.direction| + 6
    ensures line[..|r.callsign| + 1] == r.callsign + " "
    ensures line[|r.callsign| + 1 + |r.frequency|] == OffsetSign(num, r.offset)[0]
    ensures line[|line| - |r.direction| - 1..] == " " + r.direction
  {
    var (dist, unit) := Distance(num, r.distance, r.country);
    r.callsign + " " + r.frequency + OffsetSign(num, r.offset) + " T" + Tone(num, r.uplinkOffset)
      + " " + dist + unit + " " + r.direction
  }

  /** When no field contains a space, splitting a line on spaces recovers
      the five fields in order: callsign, signed frequency, tone, distance
      with unit, direction. */
  lemma ListLineFields(num: Numerics, r: Lookup.Record)
    requires ' ' !in r.callsign && ' ' !in r.frequency && ' ' !in r.direction
    requires ' ' !in Tone(num, r.uplinkOffset)
    requires ' ' !in Distance(num, r.distance, r.country).0
    ensures Text.Split(ListLine(num, r), ' ') == [
      r.callsign,
      r.frequency + OffsetSign(num, r.offset),
      "T" + Tone(num, r.uplinkOffset),
      Distance(num, r.distance, r.country).0 + Distance(num, r.distance, r.country).1,
      r.direction]
  {
    var d := Distance(num, r.distance, r.country);
    var sign := OffsetSign(num, r.offset);
    var tone := Tone(num, r.uplinkOffset);
    assert ' ' !in d.1;
    assert ' ' !in sign;
    var line := r.callsign + " " + (r.frequency + sign) + " " + ("T" + tone) + " " + (d.0 + d.1)
      + " " + r.direction;
    assert ListLine(num, r) == r.callsign + " " + r.frequency + sign + " T" + tone
      + " " + d.0 + d.1 + " " + r.direction;
    assert ListLine(num, r) == line;
    SplitFiveFields(r.callsign, r.frequency + sign, "T" + tone, d.0 + d.1, r.direction);
  }

  lemma SplitFiveFields(a: string, b: string, c: string, d: string, e: string)
    requires ' ' !in a && ' ' !in b && ' ' !in c && ' ' !in d && ' ' !in e
    ensures Text.Split(a + " " + b + " " + c + " " + d + " " + e, ' ') == [a, b, c, d, e]
  {
    var x2 := a + " " + b;
    var x3 := x2 + " " + c;
    var x4 := x3 + " " + d;
    Text.SplitNoSeparator(a, ' ');
    Text.SplitNoSeparator(b, ' ');
    Text.SplitNoSeparator(c, ' ');
    Text.SplitNoSeparator(d, ' ');
    Text.SplitNoSeparator(e, ' ');
    Text.SplitConcat(a, ' ', b);
    Text.SplitConcat(x2, ' ', c);
    Text.SplitConcat(x3, ' ', d);
    Text.SplitConcat(x4, ' ', e);
  }

  /** The list-form handler on the fetch result. A missing or empty answer
      gives "None Found"; otherwise there is exactly one line per record, in
      record order. The usage text is not a valid input here. */
  method ListReplies(num: Numerics, fetched: Lookup.Fetched) returns (reply: Reply)
    requires fetched.Data?
    ensures reply == Single(NoneFound) <==>
      fetched.records.None? || fetched.records.value == []
    ensures fetched.records.Some? && fetched.records.value != [] ==>
      reply.Lines? && |reply.lines| == |fetched.records.value|
    ensures reply.Lines? ==>
      forall i :: 0 <= i < |reply.lines| ==> reply.lines[i] == ListLine(num, fetched.records.value[i])
  {
    if fetched.records.None? || fetched.records.value == [] {
      return Single(NoneFound);
    }
    var records := fetched.records.value;
    var lines: seq<string> := [];
    var i := 0;
    while i < |records|
      invariant 0 <= i <= |records|
      invariant |lines| == i
      invariant forall j :: 0 <= j < i ==> lines[j] == ListLine(num, records[j])
    {
      lines := lines + [ListLine(num, records[i])];
      i := i + 1;
    }
    return Lines(lines);
  }

  // ---------------------------------------------------------------------
  // Object ("item in message") form

  /** The repeater offset with two decimals and the decimal point dropped:
      every other character is kept, as often as it occurs. */
  function OffsetDigits(num: Numerics, offset: string): (d: string)
    ensures '.' !in d
    ensures '.' !in num.twoDecimals(offset) ==> d == num.twoDecimals(offset)
    ensures forall x :: x != '.' ==> multiset(d)[x] == multiset(num.twoDecimals(offset))[x]
  {
    Text.RemoveChar(num.twoDecimals(offset), '.')
  }

  /** With one decimal point, the digits are those before it followed by
      those after it, in order. */
  lemma OffsetDigitsAtPoint(num: Numerics, offset: string, whole: string, fraction: string)
    requires num.twoDecimals(offset) == whole + "." + fraction
    requires '.' !in whole && '.' !in fraction
    ensures OffsetDigits(num, offset) == whole + fraction
  {
    Text.RemoveCharAppend(whole + ".", fraction, '.');
    Text.RemoveCharAppend(whole, ".", '.');
    assert Text.RemoveChar(".", '.') == "" by {
      assert "."[1..] == "";
    }
  }

  /** The space-separated fields after the `!` of an item:
      `<lat>N/<long>Wr<frequency>Mhz`, `T<tone>` and the offset digits. */
  function ItemFields(num: Numerics, r: Lookup.Record): seq<string>
  {
    [ num.twoDecimals(r.lat) + "N/" + num.twoDecimals(r.long) + "Wr" + r.frequency + "Mhz",
      "T" + Tone(num, r.uplinkOffset),
      OffsetDigits(num, r.offset) ]
  }

  predicate SpaceFree(fields: seq<string>)
  {
    forall i :: 0 <= i < |fields| ==> ' ' !in fields[i]
  }

  /** The item-in-message text for one repeater:
      `)<callsign padded to 9>!<lat>N/<long>Wr<frequency>Mhz T<tone> <offset digits>`
      with no space before `!`. The callsign is padded, never truncated. */
  function ItemInMessage(num: Numerics, r: Lookup.Record): (m: string)
    ensures |m| >= 12 + |r.callsign| + |OffsetDigits(num, r.offset)|
    ensures |m| >= 12 + ItemNameWidth + |OffsetDigits(num, r.offset)|
    ensures m[0] == ')'
    ensures m[1..1 + |r.callsign|] == r.callsign
    ensures |r.callsign| <= ItemNameWidth ==>
      m[1 + ItemNameWidth] == '!' &&
      forall i :: 1 + |r.callsign| <= i < 1 + ItemNameWidth ==> m[i] == ' '
    ensures |r.callsign| > ItemNameWidth ==> m[1 + |r.callsign|] == '!'
    ensures m[..|Text.PadRight(r.callsign, ItemNameWidth)| + 2] ==
      ")" + Text.PadRight(r.callsign, ItemNameWidth) + "!"
    ensures SpaceFree(ItemFields(num, r)) ==>
      Text.Split(m[|Text.PadRight(r.callsign, ItemNameWidth)| + 2..], ' ') == ItemFields(num, r)
    ensures m[|m| - |OffsetDigits(num, r.offset)| - 1..] == " " + OffsetDigits(num, r.offset)
  {
    var name := Text.PadRight(r.callsign, ItemNameWidth);
    var latlon := num.twoDecimals(r.lat) + "N/" + num.twoDecimals(r.long) + "W";
    var digits := OffsetDigits(num, r.offset);
    var tone := Tone(num, r.uplinkOffset);
    var head := ")" + name + "!";
    var body := latlon + "r" + r.frequency + "Mhz T" + tone;
    var tail := " " + digits;
    var m := head + body + tail;
    assert head[0] == ')' && head[1..1 + |name|] == name && head[1 + |name|] == '!';
    assert m[..|head|] == head;
    assert m[|head| + |body|..] == tail;
    ItemRestFields(num, r, m[|head|..], body, tail);
    m
  }

  /** The text after the `!` is the item fields joined with single spaces. */
  lemma ItemRestFields(num: Numerics, r: Lookup.Record, rest: string, body: string, tail: string)
    requires body == num.twoDecimals(r.lat) + "N/" + num.twoDecimals(r.long) + "W" + "r"
      + r.frequency + "Mhz T" + Tone(num, r.uplinkOffset)
    requires tail == " " + OffsetDigits(num, r.offset)
    requires rest == body + tail
    ensures SpaceFree(ItemFields(num, r)) ==> Text.Split(rest, ' ') == ItemFields(num, r)
  {
    var f := ItemFields(num, r);
    if SpaceFree(f) {
      assert ' ' !in f[0] && ' ' !in f[1] && ' ' !in f[2];
      assert rest == f[0] + " " + (f[1] + " " + f[2]);
      Text.SplitNoSeparator(f[2], ' ');
      Text.SplitAtFirstSeparator(f[1], ' ', f[2]);
      Text.SplitAtFirstSeparator(f[0], ' ', f[1] + " " + f[2]);
    }
  }

  /** The object-form handler: the item of the first record of a non-empty
      answer whose offset, latitude and longitude are numbers (the source
      fails on anything else). */
  function ObjectReply(num: Numerics, fetched: Lookup.Fetched): (m: string)
    requires fetched.Data? && fetched.records.Some? && |fetched.records.value| >= 1
    requires num.isFloat(fetched.records.value[0].offset)
    requires num.isFloat(fetched.records.value[0].lat) && num.isFloat(fetched.records.value[0].long)
    ensures |m| > |Text.PadRight(fetched.records.value[0].callsign, ItemNameWidth)| + 2
    ensures m[..|Text.PadRight(fetched.records.value[0].callsign, ItemNameWidth)| + 2] ==
      ")" + Text.PadRight(fetched.records.value[0].callsign, ItemNameWidth) + "!"
    ensures SpaceFree(ItemFields(num, fetched.records.value[0])) ==>
      Text.Split(m[|Text.PadRight(fetched.records.value[0].callsign, ItemNameWidth)| + 2..], ' ') ==
        ItemFields(num, fetched.records.value[0])
  {
    ItemInMessage(num, fetched.records.value[0])
  }

  // ---------------------------------------------------------------------
  // Consequences

  /** Only the first record decides the object reply. */
  lemma ObjectReplyUsesFirstRecord(num: Numerics, first: Lookup.Record, rest: seq<Lookup.Record>)
    requires num.isFloat(first.offset) && num.isFloat(first.lat) && num.isFloat(first.long)
    ensures ObjectReply(num, Lookup.Data(Some([first] + rest))) ==
      ObjectReply(num, Lookup.Data(Some([first])))
  {
  }

  /** The two forms describe a repeater with the same tone: the third field
      of its list line is the second field after the `!` of its item. */
  lemma BothFormsShareTone(num: Numerics, r: Lookup.Record)
    requires ' ' !in r.callsign && ' ' !in r.frequency && ' ' !in r.direction
    requires ' ' !in Distance(num, r.distance, r.country).0
    requires SpaceFree(ItemFields(num, r))
    ensures |Text.Split(ListLine(num, r), ' ')| == 5 &&
      Text.Split(ListLine(num, r), ' ')[2] ==
        Text.Split(ItemInMessage(num, r)[|Text.PadRight(r.callsign, ItemNameWidth)| + 2..], ' ')[1]
  {
    assert ItemFields(num, r)[1] == "T" + Tone(num, r.uplinkOffset);
    assert ' ' !in Tone(num, r.uplinkOffset) by {
      assert ' ' !in ItemFields(num, r)[1];
    }
    ListLineFields(num, r);
  }

  /** The unit choice ignores letter case in the country name. */
  lemma UnitIgnoresCase(num: Numerics, distance: string, c1: string, c2: string)
    requires Text.Lower(c1) == Text.Lower(c2)
    ensures Distance(num, distance, c1).1 == Distance(num, distance, c2).1
  {
  }

  /** The worked distance examples: 160900 metres in the United States are
      reported in miles, in Germany in kilometres. */
  lemma DistanceExamples(num: Numerics)
    requires num.isFloat("160900")
    ensures Distance(num, "160900", "United States") == (num.miles("160900"), "mi")
    ensures Distance(num, "160900", "United Kingdom") == (num.miles("160900"), "mi")
    ensures Distance(num, "160900", "Germany") == (num.kilometres("160900"), "km")
  {
    assert Text.Lower("United States") == "united states";
    assert Text.Lower("United Kingdom") == "united kingdom";
    assert Text.Lower("Germany") != "united states" by {
      assert |Text.Lower("Germany")| == 7;
    }
  }

  /** The worked offset example: an offset rendered as `0.60` is sent as
      `060`. */
  lemma OffsetDigitsExample(num: Numerics)
    requires num.twoDecimals("0.6") == "0.60"
    ensures OffsetDigits(num, "0.6") == "060"
  {
    assert "0.60"[1..] == ".60";
    assert ".60"[1..] == "60";
    assert Text.RemoveChar("60", '.') == "60";
    assert Text.RemoveChar(".60", '.') == "60";
  }
}

=== FILE: text.dfy ===
/** String helpers the plugin relies on: `str.split(sep)` with a one-character
    separator, `sep.join(parts)`, `str.lower()`, `"{:Ns}".format(s)` and
    `str.replace(c, "")`. */
module Text {

  /** `s.split(sep)`: the pieces between occurrences of `sep`, keeping empty
      pieces (two adjacent separators give an empty piece). */
  function Split(s: string, sep: char): (parts: seq<string>)
    ensures |parts| >= 1
    ensures forall i :: 0 <= i < |parts| ==> sep !in parts[i]
    decreases |s|
  {
    if |s| == 0 then [""]
    else
      var rest := Split(s[1..], sep);
      if s[0] == sep then [""] + rest
      else [[s[0]] + rest[0]] + rest[1..]
  }

  /** `sep.join(parts)` for a non-empty list of pieces. */
  function Join(parts: seq<string>, sep: char): string
    requires |parts| >= 1
    decreases |parts|
  {
    if |parts| == 1 then parts[0] else parts[0] + [sep] + Join(parts[1..], sep)
  }

  /** Joining the pieces of a split gives back the original string. */
  lemma {:induction false} JoinSplit(s: string, sep: char)
    ensures Join(Split(s, sep), sep) == s
    decreases |s|
  {
    if |s| > 0 {
      var rest := Split(s[1..], sep);
      JoinSplit(s[1..], sep);
      if s[0] == sep {
        assert Split(s, sep) == [""] + rest;
        assert ([""] + rest)[1..] == rest;
        assert s == [sep] + s[1..];
      } else {
        var parts := Split(s, sep);
        assert parts == [[s[0]] + rest[0]] + rest[1..];
        if |rest| == 1 {
          assert s == [s[0]] + s[1..];
        } else {
          assert parts[1..] == rest[1..];
          assert Join(rest, sep) == rest[0] + [sep] + Join(rest[1..], sep);
          assert s == [s[0]] + s[1..];
        }
      }
    }
  }

  /** A string without the separator is a single piece. */
  lemma {:induction false} SplitNoSeparator(s: string, sep: char)
    requires sep !in s
    ensures Split(s, sep) == [s]
    decreases |s|
  {
    if |s| > 0 {
      assert sep !in s[1..];
      SplitNoSeparator(s[1..], sep);
      assert s == [s[0]] + s[1..];
    }
  }

  /** A separator after a separator-free prefix cuts exactly there. */
  lemma {:induction false} SplitAtFirstSeparator(a: string, sep: char, b: string)
    requires sep !in a
    ensures Split(a + [sep] + b, sep) == [a] + Split(b, sep)
    decreases |a|
  {
    var s := a + [sep] + b;
    if |a| == 0 {
      assert s == [sep] + b;
      assert s[1..] == b;
    } else {
      assert s[1..] == a[1..] + [sep] + b;
      assert sep !in a[1..];
      SplitAtFirstSeparator(a[1..], sep, b);
      assert a == [a[0]] + a[1..];
    }
  }

  /** A separator anywhere cuts the string into the pieces of what comes
      before it followed by the pieces of what comes after it. */
  lemma SplitConcat(a: string, sep: char, b: string)
    ensures Split(a + [sep] + b, sep) == Split(a, sep) + Split(b, sep)
  {
    var pa := Split(a, sep);
    var pb := Split(b, sep);
    JoinSplit(a, sep);
    JoinSplit(b, sep);
    JoinAppend(pa, pb, sep);
    assert forall i :: 0 <= i < |pa + pb| ==> sep !in (pa + pb)[i];
    SplitJoin(pa + pb, sep);
  }

  /** Joining two lists of pieces is joining each and putting a separator
      between the results. */
  lemma {:induction false} JoinAppend(p: seq<string>, q: seq<string>, sep: char)
    requires |p| >= 1 && |q| >= 1
    ensures Join(p + q, sep) == Join(p, sep) + [sep] + Join(q, sep)
    decreases |p|
  {
    if |p| > 1 {
      assert (p + q)[1..] == p[1..] + q;
      JoinAppend(p[1..], q, sep);
    } else {
      assert (p + q)[1..] == q;
    }
  }

  /** Splitting a join of separator-free pieces gives back the pieces. */
  lemma {:induction false} SplitJoin(parts: seq<string>, sep: char)
    requires |parts| >= 1
    requires forall i :: 0 <= i < |parts| ==> sep !in parts[i]
    ensures Split(Join(parts, sep), sep) == parts
    decreases |parts|
  {
    if |parts| == 1 {
      SplitNoSeparator(parts[0], sep);
    } else {
      SplitJoin(parts[1..], sep);
      SplitAtFirstSeparator(parts[0], sep, Join(parts[1..], sep));
      assert parts == [parts[0]] + parts[1..];
    }
  }

  /** `c.lower()` on ASCII letters; every other character is unchanged. */
  function LowerChar(c: char): char
  {
    if 'A' <= c <= 'Z' then (c as int - 'A' as int + 'a' as int) as char else c
  }

  /** `s.lower()`, ASCII only. */
  function Lower(s: string): (r: string)
    ensures |r| == |s|
    ensures forall i :: 0 <= i < |s| ==> r[i] == LowerChar(s[i])
  {
    seq(|s|, i requires 0 <= i < |s| => LowerChar(s[i]))
  }

  /** Every character is an ASCII lower-case letter. */
  predicate LowerLetters(k: string)
  {
    forall i :: 0 <= i < |k| ==> 'a' <= k[i] <= 'z'
  }

  /** Lower-casing undoes any mix of upper-case letters: a word of lower-case
      letters in which some letters were written in upper case lowers back to
      the word. */
  lemma LowerCaseVariant(k: string, s: string)
    requires LowerLetters(k)
    requires |s| == |k|
    requires forall i :: 0 <= i < |k| ==> s[i] == k[i] || s[i] as int == k[i] as int - 32
    ensures Lower(s) == k
  {
  }

  /** `"{:ws}".format(s)` (strings align left): pads on the right with spaces up to width `w` and
      never truncates. */
  function PadRight(s: string, w: nat): (r: string)
    ensures |r| == if |s| >= w then |s| else w
    ensures r[..|s|] == s
    ensures forall i :: |s| <= i < |r| ==> r[i] == ' '
    decreases w - |s|
  {
    if |s| >= w then s else PadRight(s + " ", w)
  }

  /** `s.replace(c, "")`: every occurrence of `c` removed, the other
      characters kept in order. */
  function RemoveChar(s: string, c: char): (r: string)
    ensures c !in r
    ensures |r| <= |s|
    ensures c !in s ==> r == s
    ensures forall x :: x != c ==> multiset(r)[x] == multiset(s)[x]
  {
    if |s| == 0 then ""
    else
      assert s == [s[0]] + s[1..];
      if s[0] == c then RemoveChar(s[1..], c) else [s[0]] + RemoveChar(s[1..], c)
  }

  /** Removing a character works piece by piece over a concatenation. */
  lemma {:induction false} RemoveCharAppend(a: string, b: string, c: char)
    ensures RemoveChar(a + b, c) == RemoveChar(a, c) + RemoveChar(b, c)
    decreases |a|
  {
    if |a| > 0 {
      assert (a + b)[1..] == a[1..] + b;
      RemoveCharAppend(a[1..], b, c);
    } else {
      assert a + b == b;
    }
  }
}

=== FILE: tokenizer.dfy ===
/** The request tokenizer of the nearest-repeater command: a message
    `n [num] [band] [+filter] ...` becomes a station count, a band and a list
    of filter columns, or the usage text. */
module Tokenizer {
  import opened Wrappers
  import Text
  import Integers
  import Catalog

  /** The reply for a token no classifier accepts. */
  const Usage: string := "Usage: n [num] [band] [+filter]"

  /** What one parameter token means. The classifiers are tried in a fixed
      order: integer, then trailing `m`, then leading `+`. */
  datatype Token =
    | Count(n: int)           // an integer: the number of stations
    | Band(name: string)      // a catalogued band
    | UnknownBand             // ends in `m` but is not catalogued: ignored
    | Filter(column: string)  // `+alias` with a known alias
    | UnknownFilter           // `+alias` with an unknown alias: ignored
    | Unrecognised            // none of the above: the request is invalid

  /** The request as built so far; `None` means "not given yet". */
  datatype Partial = Partial(count: Option<int>, band: Option<string>, filters: seq<string>)

  /** The request after defaults are applied. */
  datatype ParsedRequest = ParsedRequest(count: int, band: string, filters: seq<string>)

  const Start: Partial := Partial(None, None, [])

  function Classify(t: string): (c: Token)
    ensures c.Unrecognised? <==>
      !Integers.IsInt(t) && !Catalog.EndsWithM(t) && !Catalog.StartsWithPlus(t)
    ensures c.Count? ==> Integers.IsInt(t)
    ensures c.Band? ==> c.name == t && t in Catalog.FreqBandPlan
    ensures c.Filter? ==> c.column in Catalog.StationFeatures.Values
    ensures c.UnknownBand? <==>
      !Integers.IsInt(t) && Catalog.EndsWithM(t) && t !in Catalog.FreqBandPlan
    ensures c.UnknownFilter? <==>
      !Integers.IsInt(t) && !Catalog.EndsWithM(t) && Catalog.StartsWithPlus(t) &&
      Text.Lower(t[1..]) !in Catalog.StationFeatures
    ensures c.Filter? <==>
      !Integers.IsInt(t) && !Catalog.EndsWithM(t) && Catalog.StartsWithPlus(t) &&
      Text.Lower(t[1..]) in Catalog.StationFeatures
  {
    if Integers.IsInt(t) then Count(Integers.IntValue(t))
    else if Catalog.EndsWithM(t) then
      (if t in Catalog.FreqBandPlan then Band(t) else UnknownBand)
    else if Catalog.StartsWithPlus(t) then
      (var alias := Text.Lower(t[1..]);
       if alias in Catalog.StationFeatures then Filter(Catalog.StationFeatures[alias])
       else UnknownFilter)
    else Unrecognised
  }

  /** The effect of one recognised token on the request being built. */
  function Step(p: Partial, c: Token): Partial
    requires !c.Unrecognised?
  {
    match c
    case Count(n) => p.(count := Some(n))
    case Band(name) => p.(band := Some(name))
    case Filter(column) => p.(filters := p.filters + [column])
    case UnknownBand => p
    case UnknownFilter => p
  }

  /** The token loop: tokens are consumed left to right and the first
      unrecognised one ends the parse with the usage text. */
  function ParseFrom(p: Partial, tokens: seq<string>): Result<Partial, string>
    decreases |tokens|
  {
    if |tokens| == 0 then Success(p)
    else
      var c := Classify(tokens[0]);
      if c.Unrecognised? then Failure(Usage)
      else ParseFrom(Step(p, c), tokens[1..])
  }

  /** Defaults: a missing or zero count becomes 1, a missing band becomes
      `2m`. A negative count is kept. */
  function Finish(p: Partial): (r: ParsedRequest)
    ensures p.count.None? ==> r.count == 1
    ensures p.count.Some? ==> r.count == if p.count.value == 0 then 1 else p.count.value
    ensures r.band == if p.band.Some? then p.band.value else Catalog.DefaultBand
    ensures r.filters == p.filters
  {
    ParsedRequest(
      if p.count.None? || p.count.value == 0 then 1 else p.count.value,
      if p.band.None? then Catalog.DefaultBand else p.band.value,
      p.filters)
  }

  /** The parameter tokens (the message without its command word). */
  function ParseParameters(tokens: seq<string>): Result<ParsedRequest, string>
  {
    match ParseFrom(Start, tokens)
    case Success(p) => Success(Finish(p))
    case Failure(e) => Failure(e)
  }

  /** A whole message: split on single spaces, command word dropped. */
  function ParseMessage(message: string): (r: Result<ParsedRequest, string>)
    ensures r.Failure? <==> HasUnrecognised(Text.Split(message, ' ')[1..])
    ensures r.Failure? ==> r.error == Usage
    ensures r.Success? ==> r.value.band in Catalog.FreqBandPlan && r.value.count != 0
    ensures r.Success? ==> forall i :: 0 <= i < |r.value.filters| ==>
      r.value.filters[i] in Catalog.StationFeatures.Values
  {
    var tokens := Text.Split(message, ' ')[1..];
    ParseParametersMeaning(tokens);
    if ParseParameters(tokens).Success? then
      ParsedRequestWellFormed(tokens);
      ParseParameters(tokens)
    else
      ParseParameters(tokens)
  }

  // ---------------------------------------------------------------------
  // Reference meaning of a parse, read from the end of the token list.

  /** Some token in the list is rejected by every classifier. */
  predicate HasUnrecognised(tokens: seq<string>)
  {
    exists i :: 0 <= i < |tokens| && Classify(tokens[i]).Unrecognised?
  }

  /** The value of the last integer token, if any. */
  function LastCount(tokens: seq<string>): Option<int>
    decreases |tokens|
  {
    if |tokens| == 0 then None
    else
      var c := Classify(tokens[|tokens| - 1]);
      if c.Count? then Some(c.n) else LastCount(tokens[..|tokens| - 1])
  }

  /** The last catalogued band token, if any. */
  function LastBand(tokens: seq<string>): Option<string>
    decreases |tokens|
  {
    if |tokens| == 0 then None
    else
      var c := Classify(tokens[|tokens| - 1]);
      if c.Band? then Some(c.name) else LastBand(tokens[..|tokens| - 1])
  }

  /** The columns of every known `+alias` token, in token order, duplicates
      kept. */
  function FilterColumns(tokens: seq<string>): seq<string>
    decreases |tokens|
  {
    if |tokens| == 0 then []
    else
      var c := Classify(tokens[|tokens| - 1]);
      FilterColumns(tokens[..|tokens| - 1]) + (if c.Filter? then [c.column] else [])
  }

  /** Parsing one more token continues from where the shorter list stopped. */
  lemma {:induction false} ParseFromSnoc(p: Partial, tokens: seq<string>, t: string)
    ensures ParseFrom(p, tokens + [t]) ==
      match ParseFrom(p, tokens)
      case Failure(e) => Failure(e)
      case Success(q) =>
        if Classify(t).Unrecognised? then Failure(Usage) else Success(Step(q, Classify(t)))
    decreases |tokens|
  {
    if |tokens| == 0 {
      assert [t][1..] == [];
    } else {
      assert (tokens + [t])[0] == tokens[0];
      assert (tokens + [t])[1..] == tokens[1..] + [t];
      if !Classify(tokens[0]).Unrecognised? {
        ParseFromSnoc(Step(p, Classify(tokens[0])), tokens[1..], t);
      }
    }
  }

  /** The token loop fails exactly when some token is unrecognised, always
      with the usage text, and otherwise yields the last count, the last
      band and all known filter columns. */
  lemma {:induction false} ParseFromMeaning(tokens: seq<string>)
    ensures ParseFrom(Start, tokens).Failure? <==> HasUnrecognised(tokens)
    ensures ParseFrom(Start, tokens).Failure? ==> ParseFrom(Start, tokens).error == Usage
    ensures ParseFrom(Start, tokens).Success? ==>
      ParseFrom(Start, tokens).value == Partial(LastCount(tokens), LastBand(tokens), FilterColumns(tokens))
    decreases |tokens|
  {
    if |tokens| > 0 {
      var init := tokens[..|tokens| - 1];
      var t := tokens[|tokens| - 1];
      assert tokens == init + [t];
      ParseFromMeaning(init);
      ParseFromSnoc(Start, init, t);
      if HasUnrecognised(init) {
        var i :| 0 <= i < |init| && Classify(init[i]).Unrecognised?;
        assert tokens[i] == init[i];
      } else if Classify(t).Unrecognised? {
        assert tokens[|tokens| - 1] == t;
      } else {
        forall i | 0 <= i < |tokens|
          ensures !Classify(tokens[i]).Unrecognised?
        {
          if i < |init| {
            assert tokens[i] == init[i];
          }
        }
      }
    }
  }

  /** The whole parse against its reference meaning, both directions. */
  lemma ParseParametersMeaning(tokens: seq<string>)
    ensures ParseParameters(tokens).Failure? <==> HasUnrecognised(tokens)
    ensures ParseParameters(tokens).Failure? ==> ParseParameters(tokens).error == Usage
    ensures ParseParameters(tokens).Success? ==>
      ParseParameters(tokens).value ==
        Finish(Partial(LastCount(tokens), LastBand(tokens), FilterColumns(tokens)))
  {
    ParseFromMeaning(tokens);
  }

  // ---------------------------------------------------------------------
  // Consequences.

  /** A message with no parameters asks for one station on 2m, unfiltered. */
  lemma NoParameters(command: string)
    requires ' ' !in command
    ensures ParseMessage(command) == Success(ParsedRequest(1, "2m", []))
  {
    Text.SplitNoSeparator(command, ' ');
  }

  /** One unrecognised token makes the parse return the usage text, whatever
      tokens come before or after it. */
  lemma UsageShortCircuits(before: seq<string>, bad: string, after: seq<string>)
    requires Classify(bad).Unrecognised?
    ensures ParseParameters(before + [bad] + after) == Failure(Usage)
  {
    var tokens := before + [bad] + after;
    assert tokens[|before|] == bad;
    ParseParametersMeaning(tokens);
  }

  /** The empty token (from two adjacent spaces) is unrecognised, so a
      double space anywhere in a message is a usage error. */
  lemma DoubleSpaceIsUsage(before: string, after: string)
    ensures Classify("").Unrecognised?
    ensures ParseMessage(before + "  " + after) == Failure(Usage)
  {
    var m := before + "  " + after;
    assert m == before + [' '] + ([' '] + after);
    Text.SplitConcat(before, ' ', [' '] + after);
    assert [' '] + after == "" + [' '] + after;
    Text.SplitConcat("", ' ', after);
    var pre := Text.Split(before, ' ');
    var parts := Text.Split(m, ' ');
    assert parts == pre + [""] + Text.Split(after, ' ');
    assert parts[1..] == pre[1..] + [""] + Text.Split(after, ' ');
    UsageShortCircuits(pre[1..], "", Text.Split(after, ' '));
  }

  /** The integer test comes first: `+` followed by digits is a count. */
  lemma PlusDigitsIsCount(digits: string)
    requires |digits| >= 1 && Integers.AllDigits(digits)
    ensures Classify("+" + digits) == Count(Integers.DigitsValue(digits))
  {
    Integers.PlusSignKeepsValue(digits);
  }

  /** The band test comes before the filter test: `+fm` is an unknown band,
      so the `fm_analog` column is selected only when the alias is spelled
      with an upper-case `M` (`+FM` or `+fM`), which escapes the band test. */
  lemma FmFilterNeedsCapitalM(t: string)
    ensures Classify("+fm") == UnknownBand
    ensures Classify(t) == Filter("fm_analog") <==>
      |t| == 3 && t[0] == '+' && Text.LowerChar(t[1]) == 'f' && t[2] == 'M'
  {
    assert !Integers.IsInt("+fm") by {
      assert !Integers.IsDigit("+fm"[1]);
    }
    if Classify(t) == Filter("fm_analog") {
      var alias := Text.Lower(t[1..]);
      assert alias in Catalog.StationFeatures && Catalog.StationFeatures[alias] == "fm_analog";
      assert alias == "fm";
      assert Text.LowerChar(t[2]) == 'm';
    }
    if |t| == 3 && t[0] == '+' && Text.LowerChar(t[1]) == 'f' && t[2] == 'M' {
      assert !Integers.IsDigit(t[1]);
      assert !Integers.AllDigits(t[1..]) by { assert t[1..][0] == t[1]; }
      assert Text.Lower(t[1..]) == "fm";
    }
  }

  /** A known alias is accepted with any of its letters in upper case, as
      long as the token does not end in a lower-case `m`. */
  lemma AliasInAnyCase(k: string, t: string)
    requires k in Catalog.StationFeatures
    requires |t| == |k| + 1 && t[0] == '+' && t[|t| - 1] != 'm'
    requires forall i :: 0 <= i < |k| ==> t[i + 1] == k[i] || t[i + 1] as int == k[i] as int - 32
    ensures Classify(t) == Filter(Catalog.StationFeatures[k])
  {
    Catalog.AliasIsLowerWord(k);
    var alias := t[1..];
    assert forall i :: 0 <= i < |k| ==> alias[i] == t[i + 1];
    Text.LowerCaseVariant(k, alias);
    assert 'a' <= k[0] <= 'z';
    assert !Integers.IsDigit(alias[0]);
    assert !Integers.AllDigits(alias);
    assert !Integers.IsInt(t);
    assert !Catalog.EndsWithM(t) && Catalog.StartsWithPlus(t);
    assert Text.Lower(alias) == k;
  }

  /** Every catalogued band token is accepted as that band. */
  lemma CatalogBandsAccepted(b: string)
    requires b in Catalog.FreqBandPlan
    ensures Classify(b) == Band(b)
  {
    Catalog.BandKeysAreBandShaped();
  }

  /** The spelling of every integer is read back as that exact count. */
  lemma IntegerTokenIsCount(n: int)
    ensures Classify(Integers.IntString(n)) == Count(n)
  {
    Integers.IntStringRoundTrip(n);
  }

  /** A non-integer token that ends in `m` but is not a catalogued band, or
      that starts with `+` (and does not end in `m`) but names no known alias,
      changes nothing. */
  lemma IgnoredTokenChangesNothing(tokens: seq<string>, t: string)
    requires !Integers.IsInt(t)
    requires (Catalog.EndsWithM(t) && t !in Catalog.FreqBandPlan) ||
      (Catalog.StartsWithPlus(t) && !Catalog.EndsWithM(t) &&
       Text.Lower(t[1..]) !in Catalog.StationFeatures)
    ensures ParseParameters(tokens + [t]) == ParseParameters(tokens)
  {
    ParseFromSnoc(Start, tokens, t);
  }

  /** A later integer token overrides any earlier count; zero falls back to
      1 and a negative count is kept. */
  lemma LaterCountOverrides(tokens: seq<string>, t: string)
    requires ParseParameters(tokens).Success?
    requires Integers.IsInt(t)
    ensures ParseParameters(tokens + [t]).Success?
    ensures ParseParameters(tokens + [t]).value.count ==
      if Integers.IntValue(t) == 0 then 1 else Integers.IntValue(t)
    ensures ParseParameters(tokens + [t]).value.band == ParseParameters(tokens).value.band
    ensures ParseParameters(tokens + [t]).value.filters == ParseParameters(tokens).value.filters
  {
    ParseFromSnoc(Start, tokens, t);
  }

  /** A later catalogued band overrides any earlier band. */
  lemma LaterBandOverrides(tokens: seq<string>, b: string)
    requires ParseParameters(tokens).Success?
    requires b in Catalog.FreqBandPlan
    ensures ParseParameters(tokens + [b]).Success?
    ensures ParseParameters(tokens + [b]).value.band == b
    ensures ParseParameters(tokens + [b]).value.count == ParseParameters(tokens).value.count
    ensures ParseParameters(tokens + [b]).value.filters == ParseParameters(tokens).value.filters
  {
    CatalogBandsAccepted(b);
    ParseFromSnoc(Start, tokens, b);
  }

  /** A known `+alias`, in any letter case, appends its column. */
  lemma FilterAppends(tokens: seq<string>, t: string)
    requires ParseParameters(tokens).Success?
    requires Catalog.StartsWithPlus(t) && !Catalog.EndsWithM(t)
    requires Text.Lower(t[1..]) in Catalog.StationFeatures
    ensures ParseParameters(tokens + [t]).Success?
    ensures ParseParameters(tokens + [t]).value.filters ==
      ParseParameters(tokens).value.filters + [Catalog.StationFeatures[Text.Lower(t[1..])]]
    ensures ParseParameters(tokens + [t]).value.count == ParseParameters(tokens).value.count
    ensures ParseParameters(tokens + [t]).value.band == ParseParameters(tokens).value.band
  {
    AliasNotDigits(t[1..]);
    assert !Integers.AllDigits(t[1..]);
    ParseFromSnoc(Start, tokens, t);
  }

  /** Every parsed request names a catalogued band, a non-zero count and only
      known filter columns. */
  lemma ParsedRequestWellFormed(tokens: seq<string>)
    requires ParseParameters(tokens).Success?
    ensures ParseParameters(tokens).value.band in Catalog.FreqBandPlan
    ensures ParseParameters(tokens).value.count != 0
    ensures forall i :: 0 <= i < |ParseParameters(tokens).value.filters| ==>
      ParseParameters(tokens).value.filters[i] in Catalog.StationFeatures.Values
  {
    ParseParametersMeaning(tokens);
    var r := ParseParameters(tokens).value;
    assert r == Finish(Partial(LastCount(tokens), LastBand(tokens), FilterColumns(tokens)));
    LastBandCatalogued(tokens);
    Catalog.BandKeysAreBandShaped();
    assert r.band in Catalog.FreqBandPlan;
    assert r.filters == FilterColumns(tokens);
    FilterColumnsKnown(tokens);
  }

  /** No filter alias lower-cases from a run of digits. */
  lemma AliasNotDigits(a: string)
    requires Text.Lower(a) in Catalog.StationFeatures
    ensures |a| >= 1 && !Integers.IsDigit(a[0])
  {
    var k := Text.Lower(a);
    assert |k| >= 1 && 'a' <= k[0] <= 'z';
  }

  lemma {:induction false} LastBandCatalogued(tokens: seq<string>)
    ensures LastBand(tokens).Some? ==> LastBand(tokens).value in Catalog.FreqBandPlan
    decreases |tokens|
  {
    if |tokens| > 0 {
      LastBandCatalogued(tokens[..|tokens| - 1]);
    }
  }

  lemma {:induction false} FilterColumnsKnown(tokens: seq<string>)
    ensures forall i :: 0 <= i < |FilterColumns(tokens)| ==>
      FilterColumns(tokens)[i] in Catalog.StationFeatures.Values
    decreases |tokens|
  {
    if |tokens| > 0 {
      FilterColumnsKnown(tokens[..|tokens| - 1]);
    }
  }

  /** The worked example `n 3 70cm +echo`. */
  lemma ExampleRequest()
    ensures ParseMessage("n 3 70cm +echo") == Success(ParsedRequest(3, "70cm", ["echolink_node"]))
  {
    var parts := ["n", "3", "70cm", "+echo"];
    forall i | 0 <= i < |parts| ensures ' ' !in parts[i] {}
    Text.SplitJoin(parts, ' ');
    assert Text.Join(parts, ' ') == "n 3 70cm +echo";
    assert parts[1..] == ["3", "70cm", "+echo"];
    ExampleTokens();
  }

  lemma ExampleTokens()
    ensures ParseParameters(["3", "70cm", "+echo"]) == Success(ParsedRequest(3, "70cm", ["echolink_node"]))
  {
    assert Classify("3") == Count(3) by {
      assert Integers.IsInt("3") && Integers.IntValue("3") == 3;
    }
    assert Classify("70cm") == Band("70cm") by {
      CatalogBandsAccepted("70cm");
    }
    assert Classify("+echo") == Filter("echolink_node") by {
      assert !Integers.IsInt("+echo") by { assert !Integers.IsDigit("+echo"[1]); }
      assert "+echo"[1..] == "echo";
      assert Text.Lower("echo") == "echo";
    }
    var p1 := Step(Start, Count(3));
    var p2 := Step(p1, Band("70cm"));
    var p3 := Step(p2, Filter("echolink_node"));
    assert ["3", "70cm", "+echo"][1..] == ["70cm", "+echo"];
    assert ["70cm", "+echo"][1..] == ["+echo"];
    assert ["+echo"][1..] == [];
    assert ParseFrom(p3, []) == Success(p3);
    assert ParseFrom(p2, ["+echo"]) == Success(p3);
    assert ParseFrom(p1, ["70cm", "+echo"]) == Success(p3);
    assert ParseFrom(Start, ["3", "70cm", "+echo"]) == Success(p3);
    assert p3 == Partial(Some(3), Some("70cm"), ["echolink_node"]);
  }
}

=== FILE: wrappers.dfy ===
/** Failure-carrying datatypes shared by the tokenizer and the fetch model. */
module Wrappers {

  /** A value that may be absent: Python's `None` against a present value. */
  datatype Option<+T> = None | Some(value: T)

  /** Either a successful value or an error value. */
  datatype Result<+R, +E> = Success(value: R) | Failure(error: E)
}
